=== FILE: README.md ===
# Automated System Monitoring and Reporting — a Dafny model of the collector

The collector is a small Python program. Each run it:

- creates the `system_metrics` SQLite table if it is missing;
- samples CPU, memory and battery figures from the operating system;
- inserts them as one row;
- reads the newest row back and compares it with three thresholds;
- e-mails an alert over SMTP when one or more thresholds are crossed.

The dashboard, a PyQt5 window with matplotlib charts, reads the same table through four query helpers.

This project models that core as pure functions over immutable values and
proves what the program promises about them.

| module | file | models |
|---|---|---|
| `Wrappers` | `wrappers.dfy` | `Option` and `Result` |
| `Text` | `text.dfy` | `str.join` and its inverse for `", "`-separated lists |
| `MetricStore` | `store.dfy` | the `system_metrics` table as a sequence of rows, `setup_db`, `insert_metrics`, the `ORDER BY timestamp` / `LIMIT` queries and the dashboard helpers |
| `MetricSampler` | `sampler.dfy` | `cpu_data`, `virtual_memory_data`, `battery_data` and the 11-value data vector |
| `ThresholdEvaluator` | `evaluator.dfy` | `alert_check`: threshold decisions, subject line and body lines |
| `AlertMailer` | `mailer.dfy` | `send_alert`: header building and the SMTP session with its exception handling |
| `CollectionCycle` | `cycle.dfy` | the `__main__` block: setup, sample, insert, check, send |

## Design choices

- **The table.** It is `Db = NoTable | Table(rows, lastId)`.
  - `rows` is in insertion order, and `lastId` is the AUTOINCREMENT high-water mark.
  - `Insert` fails with `NoSuchTable`, with `BindingCount` when the vector does not hold 11 values, or with `Full` once the largest 64-bit rowid has been handed out.
  - Each bound value is converted by its column's declared affinity (`REAL` or `INTEGER`) as it is stored.
- **Sampling failures.** Some readings can be missing, and reading them then raises before anything is stored.
  - psutil reports the interrupt and DPC times only on Windows, so `cpu_times.interrupt` raises elsewhere.
  - `sensors_battery()` returns `None` on a machine without a battery, so `battery.percent` raises.
  - The readings carry these as `Option`s, and a raising sampler ends the run with a `SamplingFailed` event: nothing is stored and nothing is checked.
- **"The newest row".** This means `ORDER BY timestamp DESC LIMIT 1`.
  - SQLite leaves the order among equal timestamps unspecified. The model fixes one choice: the last-inserted row among the newest.
  - The contracts of `Latest`, `CpuTimeDistribution` and `AlertCheck` say only "some row with the greatest timestamp", so they do not rely on that choice.
  - `MetricStore.OlderRowKeepsLatest` and `ThresholdEvaluator.OlderRowDoesNotChangeAlert` do rely on it: they state that the model's own pick, and so its alert, is unchanged. When two newest rows tie, SQLite may answer either, so two runs of the query can disagree. The second clause of `OlderRowKeepsLatest` states what holds under any choice: the set of newest rows is unchanged.
- **Ordering by timestamp.** `ORDER BY timestamp` likewise leaves the order of equal timestamps open. `SortByTime` keeps such rows in insertion order.
  - `SortByTime`, `RecentRows`, `PercentData`, `RamData` and `CpuTimeTrend` promise only what holds under any order: ascending timestamps, the right rows as a multiset, and, for a window, no row left out newer than one kept (`IsWindow`).
  - `MetricStore.SortAscendingIsIdentity` and `MetricStore.RecentRowsOfAscending` rely on the insertion-order choice. When two rows of an ascending table share a timestamp, SQLite may return them in either order, and a window may keep either one at its cut.
- **Rendering numbers and times.** Python's `str(float)` and SQLite's `datetime` text are a `Render` parameter (two functions) rather than a reimplementation. The body layout, headings and advice texts are modelled exactly.
- **The relay.** The SMTP server's behaviour is a `Relay` parameter: either healthy, or raising in one phase of the session.
  - `SendAlert` returns the steps attempted, whether the message was delivered, and what was printed.
  - No exception raised inside the SMTP session escapes `send_alert`, which matches its `except Exception`. The headers are set before the `try`, and what can raise there is left out below.
- **Column affinity.** The `INTEGER` columns turn an integral real into an integer, as SQLite's affinity rules do. Python binds a `bool` as `0`/`1`.

## Model

| member | source | states |
|---|---|---|
| Text.SplitJoin | alert_mailer.py:13-14 | joining comma-free, non-empty-list parts with `", "` and splitting the result gives the parts back |
| MetricStore.Setup | get_info_insert_db.py:6-26 | afterwards the table exists; an existing table is left untouched; a new one is empty and well formed |
| MetricStore.SetupIdempotent | get_info_insert_db.py:10 | `CREATE TABLE IF NOT EXISTS` run twice is the same as once, and keeps the table well formed |
| MetricStore.BindRow | get_info_insert_db.py:10-12 | the stored row carries the id AUTOINCREMENT assigns and the default timestamp |
| MetricStore.BindRowByColumn | get_info_insert_db.py:69-83 | the `i`-th bound value is read back, converted by its column's affinity, from the `i`-th column the INSERT names |
| MetricStore.RowsEqualByColumns | get_info_insert_db.py:10-24 | a row is determined by its id, its timestamp and its eleven data columns |
| MetricStore.IntegerColumn | get_info_insert_db.py:22-23 | an INTEGER column keeps integers and stores a real as an integer only when it has the same value |
| MetricStore.Insert | get_info_insert_db.py:65-86 | no table, a wrong number of values or an exhausted id space is an error, and with a table and 11 values it fails exactly when the id space is exhausted; otherwise exactly one row is appended after the old rows, under id `lastId + 1`, which becomes the new AUTOINCREMENT mark, holding the bound values, and is above every earlier id of a well-formed table |
| MetricStore.InsertPreservesWellFormed | get_info_insert_db.py:11 | ids stay positive, strictly increasing and at most the AUTOINCREMENT mark across an insert |
| MetricStore.InsertByTime | metrics_monitoring.py:103 | inserting into an ascending sequence keeps it ascending and is a permutation of the input plus the new row |
| MetricStore.SortByTime | metrics_monitoring.py:106 | the result is ascending by timestamp and a permutation of the rows |
| MetricStore.SortAscendingIsIdentity | metrics_monitoring.py:152 | sorting rows that are already in timestamp order changes nothing, under the model's insertion order for equal timestamps |
| MetricStore.LatestIndex | metrics_monitoring.py:12-16 | the chosen position has the greatest timestamp and every later row is strictly older |
| MetricStore.Latest | metrics_monitoring.py:12-19 | `None` exactly for an empty table; otherwise a stored row with the greatest timestamp |
| MetricStore.LatestUnique | metrics_monitoring.py:14 | with distinct timestamps, the newest row is the unique row of greatest timestamp |
| MetricStore.NewerRowBecomesLatest | metrics_monitoring.py:14 | after inserting a row strictly newer than all others, that row is the newest |
| MetricStore.OlderRowKeepsLatest | metrics_monitoring.py:14 | inserting a row strictly older than the newest leaves the set of newest rows unchanged, and with it the last-inserted pick among them |
| MetricStore.RecentRows | metrics_monitoring.py:100-106 | the window holds the smaller of `n` and the table size in stored rows in ascending order, and every row left out is no newer than any row kept |
| MetricStore.RecentRowsOfAscending | metrics_monitoring.py:100-106 | on a table already in time order, the model's window is exactly its last `n` rows; with equal timestamps at the cut this is the model's tie choice |
| MetricStore.WindowRowsStored | metrics_monitoring.py:100-105 | every row in a window is a row of the table |
| MetricStore.PercentData | metrics_monitoring.py:97-108 | the points are the timestamp, CPU, battery and RAM percents, in order, of a window the query may return: the smaller of 50 and the table size in stored rows, ascending by time, with no row left out newer than a row kept |
| MetricStore.RamData | metrics_monitoring.py:134-145 | the points are the timestamp, total, used and available memory, in order, of a window the query may return: the smaller of 50 and the table size in stored rows, ascending by time, with no row left out newer than a row kept |
| MetricStore.CpuTimeTrend | metrics_monitoring.py:148-154 | ascending by time and, as a multiset, exactly the stored rows' timestamp, user, system and idle times: one point per row |
| MetricStore.CpuTimeDistribution | metrics_monitoring.py:111-131 | the three keys in the source's order; zeros for an empty table, otherwise the system, user and idle times of a newest row |
| MetricSampler.CpuData | get_info_insert_db.py:28-46 | utilisation and the user, system and idle times are copied; it raises exactly when the interrupt or DPC time is not reported |
| MetricSampler.VirtualMemoryData | get_info_insert_db.py:48-56 | total, available, percent and used memory are copied |
| MetricSampler.UnstoredReadingsIgnored | get_info_insert_db.py:28-56 | readings that differ only in what is sampled and dropped (per-core utilisation, the interrupt and DPC values, frequency, free memory) give the same tuples |
| MetricSampler.BatteryData | get_info_insert_db.py:58-63 | no tuple exactly when there is no battery; otherwise percent and plug state are copied and the time left is the absolute value of `secsleft`, so never negative |
| MetricSampler.SentinelsStoredAsSeconds | get_info_insert_db.py:62 | the "unknown" and "unlimited" sentinels (-1 and -2) are stored as 1 and 2 seconds, indistinguishable from real estimates |
| MetricSampler.DataVector | get_info_insert_db.py:92-98 | the concatenated samples have exactly one value per column named in the INSERT |
| MetricSampler.Sample | get_info_insert_db.py:92-98 | no vector exactly when the CPU or battery sampler raises; otherwise the 11 values are the CPU, memory and battery tuples in that order |
| MetricSampler.VectorFillsColumns | get_info_insert_db.py:69-83 | binding the vector puts each sampled value in its intended column |
| MetricSampler.StoredTimeLeftNonNegative | get_info_insert_db.py:62 | whenever sampling succeeds, the stored `time_left` is a non-negative integer |
| ThresholdEvaluator.Triggered | metrics_monitoring.py:27-70 | a check is listed exactly when it fires (`>=` for CPU and RAM, `<=` for battery), in CPU, RAM, battery order |
| ThresholdEvaluator.CheckOfTag | metrics_monitoring.py:29 | a subject tag is recognised exactly when it is the tag of that check |
| ThresholdEvaluator.ChecksOfTagsOf | metrics_monitoring.py:29-59 | reading back the tags of a list of checks gives the list |
| ThresholdEvaluator.Subject | metrics_monitoring.py:72-73 | the subject `System Alert: ` + the joined tags of the fired checks parses back to exactly those checks |
| ThresholdEvaluator.Advice | metrics_monitoring.py:31-40 | every check has ten advice lines, none of which can be mistaken for a heading |
| ThresholdEvaluator.Footer | metrics_monitoring.py:75-79 | the health-tips footer is five lines, none of which can be mistaken for a heading |
| ThresholdEvaluator.HeadingIdentifiesCheck | metrics_monitoring.py:30-60 | a heading is neither an advice line nor the timestamp line, and it names its check uniquely |
| ThresholdEvaluator.Sections | metrics_monitoring.py:28-70 | the sections are 11 lines per fired check, block `i` being heading plus advice of check `i`, and only listed checks have headings |
| ThresholdEvaluator.BodyLines | metrics_monitoring.py:25-79 | timestamp line, then the sections, then the footer; a check's heading appears exactly when the check is listed |
| ThresholdEvaluator.HeadingsOfBody | metrics_monitoring.py:25-79 | a check's heading is in the body exactly when the check is listed |
| ThresholdEvaluator.Evaluate | metrics_monitoring.py:23-81 | no alert exactly when no check fires; otherwise the subject parses to the fired checks and the body has the layout above, with a heading exactly for each firing check |
| ThresholdEvaluator.AlertCheck | metrics_monitoring.py:8-82 | no alert for an empty table; otherwise the evaluation of a newest row |
| ThresholdEvaluator.OlderRowDoesNotChangeAlert | metrics_monitoring.py:12-16 | inserting a row strictly older than the newest does not change the alert composed from the last-inserted newest row |
| ThresholdEvaluator.CpuAndBatteryExample | config.py:12-16 | with the default thresholds, CPU 95, RAM 50 and battery 15 give the subject "System Alert: High CPU, Low Battery" and no RAM heading |
| ThresholdEvaluator.BoundariesTrigger | metrics_monitoring.py:28-58 | a reading exactly at a threshold fires that check |
| AlertMailer.ToHeader | alert_mailer.py:12-16 | a single recipient is used as is; a list of readable addresses is joined so that it splits back into the list |
| AlertMailer.SingleIsOneElementList | alert_mailer.py:13-16 | a one-element recipient list gives the same To header as a single recipient |
| AlertMailer.BuildMessage | alert_mailer.py:6-18 | subject, sender and content are copied; a single recipient is used as is, and a list is joined so that it splits back |
| AlertMailer.SendAlert | alert_mailer.py:20-27 | connect to the configured server and port, then STARTTLS, login with the sender and password, send the built message, quit; a command that raises is the last command of the session, so nothing after it is attempted; delivery happens exactly when nothing raises before the message is handed over; a failure in the session prints one line starting with the failure prefix and is never re-raised |
| CollectionCycle.SampleAndStore | get_info_insert_db.py:90-99 | nothing is stored exactly when a sampler raises or the id space is exhausted; the error names the sampler exactly when one raised, and an insert fails only with an exhausted id space; on success the table is non-empty |
| CollectionCycle.StoredRowHoldsReadings | get_info_insert_db.py:90-99 | on success exactly one row is appended after the old rows, under a fresh id with the insert time, holding all eleven sampled values in their columns (CPU percent and times, memory total, available, percent and used, battery percent, plug state as 1 or 0, absolute time left), and well-formedness is kept |
| CollectionCycle.FreshRowIsChecked | get_info_insert_db.py:99-100 | when the clock is past every stored row, the check evaluates exactly the row just inserted |
| CollectionCycle.StoreStep | get_info_insert_db.py:91-99 | the step records a sampling failure exactly when a sampler raises, an insert failure exactly when sampling succeeded and the id space is exhausted, and otherwise the last row of the table it stored into |
| CollectionCycle.CheckAndDispatch | metrics_monitoring.py:72-82 | the check is always recorded; a dispatch follows exactly when an alert was composed, and it sends that alert's subject and body |
| CollectionCycle.RunCycle | get_info_insert_db.py:90-100 | setup, then exactly one of: a sampling failure (exactly when a sampler raises), a failed insert (exactly when sampling succeeded and the id space is exhausted) or the stored row; a failure ends the run with the table as set up; after the stored row come the check of the table and at most one dispatch, in that order |

## Left out

- The dashboard (`dashboard.py`, PyQt5 and matplotlib): it only displays the query results modelled above.
- psutil itself: the readings are inputs. The per-core percentages, frequencies and free memory are sampled and dropped; the interrupt and DPC times matter only through whether they are reported.
- Other failures of the INSERT or of `setup_db`: disk I/O errors, a read-only database file, a full disk and "database is locked" from a concurrent writer. The model's only store failures are a missing table, a wrong number of values and an exhausted id space.
- `cpu_freq()` returning `None` where the frequency is unavailable, which would also make `cpu_data` raise: the frequency is not part of the reading.
- SQLite's file, connection and transaction handling, and the SQL text: the table is a value, and each statement is the function that has its effect.
- The `DEFAULT (datetime('now', 'localtime'))` clock: the insert time is the parameter `now`, and timestamps are integers ordered as the text is.
- `datetime.strptime` in `execute_query`: converting timestamps to `datetime` values does not change the points or their order, so the model keeps the integer timestamp.
- Floating point: percents and times are `real`. Python's float formatting and SQLite's time text are the `Render` parameter.
- The MIME encoding of `EmailMessage` and `set_content`: the message keeps its content as the text given.
- SMTP transport, TLS and authentication: the relay is a parameter that says where, if anywhere, the session raises. Error texts are strings.
- AlertMailer.BuildMessage: header values containing a line break (in the `from` or recipient settings) make `EmailMessage` raise `ValueError` before the `try`, so the exception would leave `send_alert` and end the run after the insert. The model builds the message from any strings and does not promise that failure.
- An empty `server` setting: `smtplib.SMTP("", port)` then does not connect, so STARTTLS raises and nothing is ever delivered. The model records `Connect("", port)` and lets the relay decide.
- `.env` loading and `config.py`: the thresholds and e-mail settings are values passed in. The default thresholds (90, 90, 20) are `Defaults`; the server, port and addresses are always settings.
- `power_plugged` being `None` (unknown): the reading carries a `bool`.
- SQL `NULL` and values outside 64 bits: every bound value is a number, and integer conversion of an out-of-range real is left as a real.
- The "No metrics found in database!" console message: `AlertCheck` returns `None` for an empty table, which is where that message is printed.
- CollectionCycle.RunCycle: states "at most one dispatch, and only as the last event" through the exact shape of the events, not as a separate quantified clause.
- Concurrency between the collector and the dashboard: each query sees one table value.

=== FILE: cycle.dfy ===
/** The `__main__` block of the collector: create the table if needed, sample,
    insert, then run the threshold check, which reads the newest row back from
    the table and sends at most one alert. */
module CollectionCycle {
  import opened Wrappers
  import opened MetricStore
  import opened MetricSampler
  import opened ThresholdEvaluator
  import opened AlertMailer

  /** The process-wide configuration, fixed for the run. */
  datatype Config = Config(thresholds: Thresholds, mail: EmailSettings, render: Render)

  /** What one run did, in the order it happened. */
  datatype Event =
    | SchemaReady
    | SamplingFailed
    | Stored(row: Row)
    | StoreFailed(error: DbError)
    | Checked(alert: Option<Alert>)
    | Dispatched(delivery: Delivery)

  /** Why the run stored nothing: a sampler raised, or the insert did. */
  datatype Failure = SamplerRaised | InsertFailed(error: DbError)

  /** `setup_db`, the data vector from the three samplers, then `insert_metrics`.
      Nothing is stored exactly when a sampler raises or the id space is used
      up; on success the table holds at least the new row (see
      `StoredRowHoldsReadings`). */
  function SampleAndStore(db: Db, cpu: CpuReading, mem: MemoryReading, battery: Option<BatteryReading>,
                          now: Timestamp): (r: Result<Db, Failure>)
    ensures r.Err? <==> Sample(cpu, mem, battery).None? || Setup(db).lastId >= MaxRowId
    ensures r.Err? ==> (r.error == SamplerRaised <==> Sample(cpu, mem, battery).None?)
    ensures r.Err? && r.error.InsertFailed? ==> r.error.error == Full
    ensures r.Ok? ==> r.value.Table? && |r.value.rows| > 0
  {
    match Sample(cpu, mem, battery)
    case None => Err(SamplerRaised)
    case Some(data) =>
      match Insert(Setup(db), data, now)
      case Err(e) => Err(InsertFailed(e))
      case Ok(d) => Ok(d)
  }

  /** On success the table has gained exactly one row, holding every sampled
      value in its column under a fresh id, and nothing else has changed. */
  lemma StoredRowHoldsReadings(db: Db, cpu: CpuReading, mem: MemoryReading, battery: Option<BatteryReading>,
                               now: Timestamp)
    ensures var r := SampleAndStore(db, cpu, mem, battery, now);
      r.Ok? ==>
      var rows, row, b := r.value.rows, r.value.rows[|r.value.rows| - 1], battery.value;
      && rows == Setup(db).rows + [row]
      && row.id == Setup(db).lastId + 1 && row.timestamp == now
      && row.cpuPercent == cpu.percent && row.cpuTimesUser == cpu.user
      && row.cpuTimesSystem == cpu.system && row.cpuTimesIdle == cpu.idle
      && row.memTotal == mem.total as real && row.memAvail == mem.available as real
      && row.memPercent == mem.percent && row.memUsed == mem.used as real
      && row.batteryPercent == b.percent
      && row.chargerPlug == (if b.powerPlugged then Integer(1) else Integer(0))
      && row.timeLeft == Integer(if b.secsLeft < 0 then -b.secsLeft else b.secsLeft)
      && (WellFormed(db) ==> WellFormed(r.value) && forall i :: 0 <= i < |rows| - 1 ==> rows[i].id < row.id)
  {
    var r := SampleAndStore(db, cpu, mem, battery, now);
    if r.Ok? {
      var ready := Setup(db);
      var c, m, bt := CpuData(cpu).value, VirtualMemoryData(mem), BatteryData(battery).value;
      var data := DataVector(c, m, bt);
      var rows := r.value.rows;
      assert Insert(ready, data, now) == Ok(r.value);
      assert rows == ready.rows + [rows[|rows| - 1]];
      VectorFillsColumns(ready.lastId + 1, now, c, m, bt);
      SetupIdempotent(db);
      if WellFormed(db) {
        InsertPreservesWellFormed(ready, data, now);
      }
    }
  }

  /** When the clock has moved past every row already in the table, the check
      that follows the insert evaluates exactly the row just stored. */
  lemma FreshRowIsChecked(db: Db, cpu: CpuReading, mem: MemoryReading, battery: Option<BatteryReading>,
                          now: Timestamp, cfg: Thresholds, fmt: Render)
    requires forall i :: 0 <= i < |Setup(db).rows| ==> Setup(db).rows[i].timestamp < now
    ensures var r := SampleAndStore(db, cpu, mem, battery, now);
      r.Ok? ==> AlertCheck(r.value.rows, cfg, fmt) == Evaluate(r.value.rows[|r.value.rows| - 1], cfg, fmt)
  {
    var r := SampleAndStore(db, cpu, mem, battery, now);
    if r.Ok? {
      StoredRowHoldsReadings(db, cpu, mem, battery, now);
      var row := r.value.rows[|r.value.rows| - 1];
      NewerRowBecomesLatest(Setup(db).rows, row);
    }
  }

  /** `alert_check` over the stored rows, then `send_alert` when it composed an
      alert: the check is always recorded, the dispatch exactly when there is an
      alert to send. */
  method CheckAndDispatch(rows: seq<Row>, cfg: Config, relay: Relay) returns (events: seq<Event>)
    ensures |events| >= 1 && events[0] == Checked(AlertCheck(rows, cfg.thresholds, cfg.render))
    ensures |events| == 2 <==> events[0].alert.Some?
    ensures |events| <= 2
    ensures |events| == 2 ==>
      events[1] == Dispatched(SendAlert(cfg.mail, events[0].alert.value.subject, events[0].alert.value.Body(), relay))
  {
    var alert := AlertCheck(rows, cfg.thresholds, cfg.render);
    events := [Checked(alert)];
    if alert.Some? {
      var delivery := SendAlert(cfg.mail, alert.value.subject, alert.value.Body(), relay);
      events := events + [Dispatched(delivery)];
    }
  }

  /** `setup_db`, sampling and `insert_metrics` as one step of the run: the
      event is the stored row, or why nothing was stored. */
  method StoreStep(db: Db, cpu: CpuReading, mem: MemoryReading, battery: Option<BatteryReading>,
                   now: Timestamp)
    returns (db': Db, e: Event)
    ensures e.SamplingFailed? || e.StoreFailed? || e.Stored?
    ensures e.SamplingFailed? <==> Sample(cpu, mem, battery).None?
    ensures e.StoreFailed? <==> Sample(cpu, mem, battery).Some? && Setup(db).lastId >= MaxRowId
    ensures e.StoreFailed? ==> e.error == Full
    ensures !e.Stored? ==> db' == Setup(db)
    ensures e.Stored? ==>
      && SampleAndStore(db, cpu, mem, battery, now) == Ok(db')
      && db'.Table? && |db'.rows| > 0 && e.row == db'.rows[|db'.rows| - 1]
  {
    var stored := SampleAndStore(db, cpu, mem, battery, now);
    match stored
    case Err(SamplerRaised) =>
      db', e := Setup(db), SamplingFailed;
    case Err(InsertFailed(error)) =>
      db', e := Setup(db), StoreFailed(error);
    case Ok(d) =>
      db', e := d, Stored(d.rows[|d.rows| - 1]);
  }

  /** One collection run. The readings are what the operating system reported,
      `now` is the clock at the insert, and `relay` is how the mail relay behaves.
      The schema is always ready first. A sampler or insert exception ends the
      run, as the uncaught exception does, and nothing is checked; otherwise the
      stored row is followed by the check of the table (see `FreshRowIsChecked`
      for which row it sees) and at most one dispatch. */
  method RunCycle(db: Db, cpu: CpuReading, mem: MemoryReading, battery: Option<BatteryReading>,
                  now: Timestamp, cfg: Config, relay: Relay)
    returns (db': Db, events: seq<Event>)
    ensures |events| >= 2 && events[0] == SchemaReady
    ensures events[1].SamplingFailed? || events[1].StoreFailed? || events[1].Stored?
    ensures events[1].SamplingFailed? <==> Sample(cpu, mem, battery).None?
    ensures events[1].StoreFailed? <==> Sample(cpu, mem, battery).Some? && Setup(db).lastId >= MaxRowId
    ensures !events[1].Stored? ==> |events| == 2 && db' == Setup(db)
    ensures events[1].StoreFailed? ==> events[1].error == Full
    ensures events[1].Stored? ==>
      && SampleAndStore(db, cpu, mem, battery, now) == Ok(db')
      && db'.Table? && |db'.rows| > 0 && events[1].row == db'.rows[|db'.rows| - 1]
      && 3 <= |events| <= 4
      && events[2] == Checked(AlertCheck(db'.rows, cfg.thresholds, cfg.render))
      && (|events| == 4 <==> events[2].alert.Some?)
      && (|events| == 4 ==>
            events[3] == Dispatched(SendAlert(cfg.mail, events[2].alert.value.subject, events[2].alert.value.Body(), relay)))
  {
    var first;
    db', first := StoreStep(db, cpu, mem, battery, now);
    if !first.Stored? {
      events := [SchemaReady, first];
      return;
    }
    var checked := CheckAndDispatch(db'.rows, cfg, relay);
    events := [SchemaReady, first] + checked;
    assert events[0] == SchemaReady && events[1] == first;
    assert events[2] == checked[0];
    assert |checked| == 2 ==> events[3] == checked[1];
  }
}

=== FILE: evaluator.dfy ===
/** `alert_check`: reads the newest stored row, applies the three threshold
    predicates, and composes at most one alert whose subject and body list the
    triggered checks in the fixed order CPU, RAM, battery. */
module ThresholdEvaluator {
  import opened Wrappers
  import opened Text
  import opened MetricStore

  /** The configured limits; the defaults are those of the configuration module. */
  datatype Thresholds = Thresholds(maxCpuPercent: real, maxRamPercent: real, minBatteryPercent: real)

  const Defaults: Thresholds := Thresholds(90.0, 90.0, 20.0)

  /** How numbers and timestamps are rendered into text (Python's `str` of a
      float and SQLite's timestamp text); the model leaves both abstract. */
  datatype Render = Render(number: real -> string, time: Timestamp -> string)

  /** The three independent checks, in the order the alert lists them. */
  datatype Check = Cpu | Ram | Battery

  function Rank(c: Check): nat
  {
    match c
    case Cpu => 0
    case Ram => 1
    case Battery => 2
  }

  /** The threshold predicates; each one includes its boundary. */
  predicate Fires(c: Check, x: Row, cfg: Thresholds)
  {
    match c
    case Cpu => x.cpuPercent >= cfg.maxCpuPercent
    case Ram => x.memPercent >= cfg.maxRamPercent
    case Battery => x.batteryPercent <= cfg.minBatteryPercent
  }

  /** The checks that fire on `x`, checked in turn. */
  function Triggered(x: Row, cfg: Thresholds): (r: seq<Check>)
    ensures forall c :: c in r <==> Fires(c, x, cfg)
    ensures forall i, j :: 0 <= i < j < |r| ==> Rank(r[i]) < Rank(r[j])
  {
    (if x.cpuPercent >= cfg.maxCpuPercent then [Cpu] else [])
    + (if x.memPercent >= cfg.maxRamPercent then [Ram] else [])
    + (if x.batteryPercent <= cfg.minBatteryPercent then [Battery] else [])
  }

  // ---------------------------------------------------------------------------
  // Subject
  // ---------------------------------------------------------------------------

  const SubjectPrefix: string := "System Alert: "

  /** The subject tag of each check. */
  function Tag(c: Check): string
  {
    match c
    case Cpu => "High CPU"
    case Ram => "High RAM"
    case Battery => "Low Battery"
  }

  function TagsOf(kinds: seq<Check>): (r: seq<string>)
    ensures |r| == |kinds| && forall i :: 0 <= i < |kinds| ==> r[i] == Tag(kinds[i])
  {
    seq(|kinds|, i requires 0 <= i < |kinds| => Tag(kinds[i]))
  }

  /** `"System Alert: " + ", ".join(subject_parts)`. The subject names exactly
      the given checks, in the given order: parsing it gives them back. */
  function Subject(kinds: seq<Check>): (r: string)
    ensures |kinds| > 0 ==> ParseSubject(r) == Some(kinds)
  {
    var tags := TagsOf(kinds);
    var r := SubjectPrefix + Join(tags, ListSeparator);
    if |kinds| > 0 then
      TagsReadBack(kinds, tags, r);
      r
    else
      r
  }

  /** Why the subject parses back: no tag holds a comma, so the joined tags
      split into the tags, and each tag names its check. */
  lemma TagsReadBack(kinds: seq<Check>, tags: seq<string>, r: string)
    requires |kinds| > 0 && tags == TagsOf(kinds)
    requires r == SubjectPrefix + Join(tags, ListSeparator)
    ensures ParseSubject(r) == Some(kinds)
  {
    forall i | 0 <= i < |tags|
      ensures NoComma(tags[i])
    {
      TagHasNoComma(kinds[i]);
    }
    SplitJoin(tags);
    ParsePrefixed(Join(tags, ListSeparator));
    ChecksOfTagsOf(kinds);
  }

  /** No subject tag holds a comma. */
  lemma TagHasNoComma(c: Check)
    ensures NoComma(Tag(c))
  {
  }

  /** A subject with the alert prefix is parsed from the list after it. */
  lemma ParsePrefixed(t: string)
    ensures ParseSubject(SubjectPrefix + t) == ChecksOfTags(SplitList(t))
  {
    var r := SubjectPrefix + t;
    assert r[..|SubjectPrefix|] == SubjectPrefix;
    assert r[|SubjectPrefix|..] == t;
  }

  /** The check a subject tag names, if any. */
  function CheckOfTag(t: string): (r: Option<Check>)
    ensures forall c :: r == Some(c) <==> t == Tag(c)
  {
    if t == "High CPU" then Some(Cpu)
    else if t == "High RAM" then Some(Ram)
    else if t == "Low Battery" then Some(Battery)
    else None
  }

  function ChecksOfTags(tags: seq<string>): Option<seq<Check>>
  {
    if |tags| == 0 then Some([])
    else match (CheckOfTag(tags[0]), ChecksOfTags(tags[1..]))
      case (Some(c), Some(rest)) => Some([c] + rest)
      case _ => None
  }

  /** Reads the list of checks back out of an alert subject. */
  function ParseSubject(subject: string): Option<seq<Check>>
  {
    if |subject| >= |SubjectPrefix| && subject[..|SubjectPrefix|] == SubjectPrefix
    then ChecksOfTags(SplitList(subject[|SubjectPrefix|..]))
    else None
  }

  lemma {:induction false} ChecksOfTagsOf(kinds: seq<Check>)
    ensures ChecksOfTags(TagsOf(kinds)) == Some(kinds)
    decreases |kinds|
  {
    if |kinds| > 0 {
      assert TagsOf(kinds)[1..] == TagsOf(kinds[1..]);
      ChecksOfTagsOf(kinds[1..]);
      assert [kinds[0]] + kinds[1..] == kinds;
    }
  }

  // ---------------------------------------------------------------------------
  // Body
  // ---------------------------------------------------------------------------

  /** The warning sign that opens each section heading. */
  const Warning: string := "\U{26A0}\U{FE0F}"

  /** The first line of the body. */
  function TimestampLine(x: Row, fmt: Render): string
  {
    "Timestamp: " + fmt.time(x.timestamp) + "\n"
  }

  /** What a check measures, as its section heading words it. */
  function Measure(c: Check): string
  {
    match c
    case Cpu => "CPU usage is above "
    case Ram => "RAM usage is above "
    case Battery => "Battery is below "
  }

  /** The configured limit of a check. */
  function Limit(c: Check, cfg: Thresholds): real
  {
    match c
    case Cpu => cfg.maxCpuPercent
    case Ram => cfg.maxRamPercent
    case Battery => cfg.minBatteryPercent
  }

  /** The stored value a check compares. */
  function Measured(c: Check, x: Row): real
  {
    match c
    case Cpu => x.cpuPercent
    case Ram => x.memPercent
    case Battery => x.batteryPercent
  }

  /** The first line of a check's section: threshold and measured value. */
  function Heading(c: Check, x: Row, cfg: Thresholds, fmt: Render): string
  {
    Warning + " " + Measure(c) + fmt.number(Limit(c, cfg)) + "%: " + fmt.number(Measured(c, x)) + "%"
  }

  /** A fixed line of an alert: a bullet opens with `"- "`, a caption with a
      line break. */
  datatype FixedLine = Bullet(text: string) | Caption(text: string)

  function LineText(l: FixedLine): string
  {
    match l
    case Bullet(t) => "- " + t
    case Caption(t) => "\n" + t
  }

  /** A fixed line: it opens with a dash or a line break. */
  predicate PlainLine(line: string)
  {
    |line| > 0 && (line[0] == '-' || line[0] == '\n')
  }

  lemma FixedLinePlain(l: FixedLine)
    ensures PlainLine(LineText(l))
  {
  }

  /** How many possible-issues and suggestions lines a section has. */
  const AdviceSize: nat := 10

  /** Line `i` of the possible-issues and suggestions of a check. */
  function AdviceLine(c: Check, i: nat): FixedLine
  {
    match c
    case Cpu => (
      match i
      case 0 => Caption("Possible Issues:")
      case 1 => Bullet("Too many running processes or background apps")
      case 2 => Bullet("A program may be stuck or consuming excess resources")
      case 3 => Bullet("Outdated drivers or heavy workloads")
      case 4 => Caption("Suggestions:")
      case 5 => Bullet("Close unnecessary programs or browser tabs")
      case 6 => Bullet("Check Task Manager to identify high-usage processes")
      case 7 => Bullet("Restart stuck apps or the system if needed")
      case 8 => Bullet("Keep drivers updated")
      case _ => Bullet("Consider hardware upgrade or better cooling if this happens often\n"))
    case Ram => (
      match i
      case 0 => Caption("Possible Issues:")
      case 1 => Bullet("Too many applications or browser tabs open")
      case 2 => Bullet("Memory leaks from long-running apps")
      case 3 => Bullet("Insufficient RAM for workload")
      case 4 => Caption("Suggestions:")
      case 5 => Bullet("Close unused applications")
      case 6 => Bullet("Restart the system to clear memory leaks")
      case 7 => Bullet("Disable unnecessary startup programs")
      case 8 => Bullet("Increase virtual memory (page file) if needed")
      case _ => Bullet("Upgrade RAM if this issue is frequent\n"))
    case Battery => (
      match i
      case 0 => Caption("Possible Issues:")
      case 1 => Bullet("Battery draining quickly without charger")
      case 2 => Bullet("Risk of sudden shutdown and data loss")
      case 3 => Bullet("Battery wear over time")
      case 4 => Caption("Suggestions:")
      case 5 => Bullet("Plug in the charger immediately")
      case 6 => Bullet("Reduce screen brightness and close background apps")
      case 7 => Bullet("Enable battery saver mode")
      case 8 => Bullet("Avoid letting battery fully discharge often")
      case _ => Bullet("For long-term health, avoid keeping battery at 100% all the time when plugged in\n"))
  }

  function Advice(c: Check): (r: seq<string>)
    ensures |r| == AdviceSize && forall i :: 0 <= i < |r| ==> PlainLine(r[i])
  {
    var r := seq(AdviceSize, i requires 0 <= i < AdviceSize => LineText(AdviceLine(c, i)));
    forall i | 0 <= i < AdviceSize
      ensures PlainLine(r[i])
    {
      FixedLinePlain(AdviceLine(c, i));
    }
    r
  }

  /** How many lines the general-tips footer has. */
  const FooterSize: nat := 5

  /** Line `i` of the general-tips footer. */
  function FooterLine(i: nat): FixedLine
  {
    match i
    case 0 => Caption("\U{1F4A1} General PC Health Tips:")
    case 1 => Bullet("Keep your OS and drivers updated")
    case 2 => Bullet("Run disk cleanup and antivirus scans periodically")
    case 3 => Bullet("Ensure good ventilation to avoid overheating")
    case _ => Bullet("Backup important data regularly\n")
  }

  /** The general-tips footer every alert ends with. */
  function Footer(): (r: seq<string>)
    ensures |r| == FooterSize && forall i :: 0 <= i < |r| ==> PlainLine(r[i])
  {
    var r := seq(FooterSize, i requires 0 <= i < FooterSize => LineText(FooterLine(i)));
    forall i | 0 <= i < FooterSize
      ensures PlainLine(r[i])
    {
      FixedLinePlain(FooterLine(i));
    }
    r
  }

  /** How many lines one section has; the block arithmetic below writes it as
      the literal 11, which the solver handles more cheaply than a constant. */
  const SectionSize: nat := 11

  function SectionLines(c: Check, x: Row, cfg: Thresholds, fmt: Render): (r: seq<string>)
    ensures |r| == SectionSize
  {
    [Heading(c, x, cfg, fmt)] + Advice(c)
  }

  /** A line that is not plain is none of a list of plain lines. */
  lemma NotAmongPlainLines(h: string, lines: seq<string>)
    requires !PlainLine(h)
    requires forall i :: 0 <= i < |lines| ==> PlainLine(lines[i])
    ensures h !in lines
  {
  }

  /** Headings open with the warning sign and differ from each other in their
      fourth character, so no heading equals a fixed line, the timestamp line
      or another check's heading. */
  lemma HeadingIdentifiesCheck(c: Check, k: Check, x: Row, cfg: Thresholds, fmt: Render)
    ensures !PlainLine(Heading(c, x, cfg, fmt))
    ensures Heading(c, x, cfg, fmt) != TimestampLine(x, fmt)
    ensures Heading(c, x, cfg, fmt) == Heading(k, x, cfg, fmt) ==> c == k
  {
    var h, g := Heading(c, x, cfg, fmt), Heading(k, x, cfg, fmt);
    assert h[0] == '\U{26A0}' && g[0] == '\U{26A0}';
    assert TimestampLine(x, fmt)[0] == 'T';
    assert h[3] == Measure(c)[0] && g[3] == Measure(k)[0];
  }

  /** A heading appears in a check's section only if it is that check's heading. */
  lemma HeadingInSection(c: Check, k: Check, x: Row, cfg: Thresholds, fmt: Render)
    requires Heading(c, x, cfg, fmt) in SectionLines(k, x, cfg, fmt)
    ensures c == k
  {
    HeadingIdentifiesCheck(c, k, x, cfg, fmt);
  }

  /** The sections of the given checks, one after the other. */
  function Sections(kinds: seq<Check>, x: Row, cfg: Thresholds, fmt: Render): (r: seq<string>)
    ensures |r| == 11 * |kinds|
    ensures forall i :: 0 <= i < |kinds| ==> r[11 * i .. 11 * (i + 1)] == SectionLines(kinds[i], x, cfg, fmt)
    ensures forall c :: Heading(c, x, cfg, fmt) in r ==> c in kinds
    decreases |kinds|
  {
    if |kinds| == 0 then []
    else
      var head, rest := SectionLines(kinds[0], x, cfg, fmt), Sections(kinds[1..], x, cfg, fmt);
      SectionBlocks(kinds, x, cfg, fmt, head, rest);
      SectionHeadings(kinds, x, cfg, fmt, head, rest);
      head + rest
  }

  /** Putting a check's section in front of the sections of the remaining checks
      shifts each of those by one block. */
  lemma SectionBlocks(kinds: seq<Check>, x: Row, cfg: Thresholds, fmt: Render, head: seq<string>, rest: seq<string>)
    requires |kinds| > 0 && head == SectionLines(kinds[0], x, cfg, fmt)
    requires |rest| == 11 * (|kinds| - 1)
    requires forall i :: 0 <= i < |kinds| - 1 ==> rest[11 * i .. 11 * (i + 1)] == SectionLines(kinds[i + 1], x, cfg, fmt)
    ensures forall i :: 0 <= i < |kinds| ==> (head + rest)[11 * i .. 11 * (i + 1)] == SectionLines(kinds[i], x, cfg, fmt)
  {
    var r := head + rest;
    forall i | 0 <= i < |kinds|
      ensures r[11 * i .. 11 * (i + 1)] == SectionLines(kinds[i], x, cfg, fmt)
    {
      if i > 0 {
        assert r[11 * i .. 11 * (i + 1)] == rest[11 * (i - 1) .. 11 * i];
      }
    }
  }

  /** A heading in a check's section followed by other sections belongs to
      that check or to one of the others. */
  lemma SectionHeadings(kinds: seq<Check>, x: Row, cfg: Thresholds, fmt: Render, head: seq<string>, rest: seq<string>)
    requires |kinds| > 0 && head == SectionLines(kinds[0], x, cfg, fmt)
    requires forall c :: Heading(c, x, cfg, fmt) in rest ==> c in kinds[1..]
    ensures forall c :: Heading(c, x, cfg, fmt) in head + rest ==> c in kinds
  {
    forall c | Heading(c, x, cfg, fmt) in head + rest
      ensures c in kinds
    {
      if Heading(c, x, cfg, fmt) in head {
        HeadingInSection(c, kinds[0], x, cfg, fmt);
      } else {
        assert c in kinds[1..];
      }
    }
  }

  /** A composed alert: the subject and the body's lines, which the mail carries
      joined by line breaks. */
  datatype Alert = Alert(subject: string, lines: seq<string>)
  {
    function Body(): string
    {
      Join(lines, "\n")
    }
  }

  /** The body's lines: the timestamp line, the section of each given check in
      the given order, then the footer. */
  function BodyLines(kinds: seq<Check>, x: Row, cfg: Thresholds, fmt: Render): (lines: seq<string>)
    ensures |lines| == 1 + 11 * |kinds| + FooterSize
    ensures lines[0] == TimestampLine(x, fmt)
    ensures forall i :: 0 <= i < |kinds| ==>
      lines[1 + 11 * i .. 1 + 11 * (i + 1)] == SectionLines(kinds[i], x, cfg, fmt)
    ensures lines[|lines| - FooterSize ..] == Footer()
    ensures forall c :: Heading(c, x, cfg, fmt) in lines <==> c in kinds
  {
    var body := Sections(kinds, x, cfg, fmt);
    var lines := [TimestampLine(x, fmt)] + body + Footer();
    forall i | 0 <= i < |kinds|
      ensures lines[1 + 11 * i .. 1 + 11 * (i + 1)] == SectionLines(kinds[i], x, cfg, fmt)
    {
      assert lines[1 + 11 * i .. 1 + 11 * (i + 1)] == body[11 * i .. 11 * (i + 1)];
    }
    assert lines[|lines| - FooterSize ..] == Footer();
    forall c
      ensures Heading(c, x, cfg, fmt) in lines <==> c in kinds
    {
      HeadingsOfBody(c, kinds, x, cfg, fmt, body, lines);
    }
    lines
  }

  lemma HeadingsOfBody(c: Check, kinds: seq<Check>, x: Row, cfg: Thresholds, fmt: Render,
                       body: seq<string>, lines: seq<string>)
    requires body == Sections(kinds, x, cfg, fmt)
    requires lines == [TimestampLine(x, fmt)] + body + Footer()
    ensures Heading(c, x, cfg, fmt) in lines <==> c in kinds
  {
    if c in kinds {
      HeadingOfListedCheck(c, kinds, x, cfg, fmt, body, lines);
    } else {
      HeadingOfUnlistedCheck(c, kinds, x, cfg, fmt, body, lines);
    }
  }

  lemma HeadingOfListedCheck(c: Check, kinds: seq<Check>, x: Row, cfg: Thresholds, fmt: Render,
                             body: seq<string>, lines: seq<string>)
    requires body == Sections(kinds, x, cfg, fmt)
    requires lines == [TimestampLine(x, fmt)] + body + Footer()
    requires c in kinds
    ensures Heading(c, x, cfg, fmt) in lines
  {
    var i :| 0 <= i < |kinds| && kinds[i] == c;
    var h, section := Heading(c, x, cfg, fmt), SectionLines(c, x, cfg, fmt);
    assert section[0] == h;
    BlockStartsBody(body, 11 * i, 11 * (i + 1), section);
    InsideFrame(TimestampLine(x, fmt), body, Footer(), lines, 11 * i);
  }

  /** The first line of a block is the line where the block starts. */
  lemma BlockStartsBody(body: seq<string>, lo: nat, hi: nat, block: seq<string>)
    requires lo < hi <= |body| && body[lo .. hi] == block
    ensures body[lo] == block[0]
  {
  }

  /** A line of the body keeps its place, one further down, in the framed body. */
  lemma InsideFrame(first: string, body: seq<string>, last: seq<string>, lines: seq<string>, j: nat)
    requires lines == [first] + body + last && j < |body|
    ensures lines[1 + j] == body[j]
  {
  }

  lemma HeadingOfUnlistedCheck(c: Check, kinds: seq<Check>, x: Row, cfg: Thresholds, fmt: Render,
                               body: seq<string>, lines: seq<string>)
    requires body == Sections(kinds, x, cfg, fmt)
    requires lines == [TimestampLine(x, fmt)] + body + Footer()
    requires c !in kinds
    ensures Heading(c, x, cfg, fmt) !in lines
  {
    var h := Heading(c, x, cfg, fmt);
    HeadingIdentifiesCheck(c, c, x, cfg, fmt);
    NotAmongPlainLines(h, Footer());
    assert h !in body;
    OutsideFrame(h, TimestampLine(x, fmt), body, Footer(), lines);
  }

  /** A line that is neither the first line, nor in the body, nor in the last
      lines is nowhere in the framed body. */
  lemma OutsideFrame(h: string, first: string, body: seq<string>, last: seq<string>, lines: seq<string>)
    requires lines == [first] + body + last
    requires h != first && h !in body && h !in last
    ensures h !in lines
  {
    assert h !in [first];
  }

  /** The decision and composition of `alert_check` for the newest row `x`. */
  function Evaluate(x: Row, cfg: Thresholds, fmt: Render): (r: Option<Alert>)
    ensures r.None? <==> forall c :: !Fires(c, x, cfg)
    ensures r.Some? ==> ParseSubject(r.value.subject) == Some(Triggered(x, cfg))
    ensures r.Some? ==> var kinds, lines := Triggered(x, cfg), r.value.lines;
      && |lines| == 1 + 11 * |kinds| + FooterSize
      && lines[0] == TimestampLine(x, fmt)
      && (forall i :: 0 <= i < |kinds| ==>
            lines[1 + 11 * i .. 1 + 11 * (i + 1)] == SectionLines(kinds[i], x, cfg, fmt))
      && lines[|lines| - FooterSize ..] == Footer()
      && (forall c :: Heading(c, x, cfg, fmt) in lines <==> Fires(c, x, cfg))
  {
    var kinds := Triggered(x, cfg);
    if |kinds| == 0 then None
    else
      Some(Alert(Subject(kinds), BodyLines(kinds, x, cfg, fmt)))
  }

  /** `alert_check` over the stored rows: nothing when the table is empty,
      otherwise the evaluation of one newest row and of nothing else. */
  function AlertCheck(rows: seq<Row>, cfg: Thresholds, fmt: Render): (r: Option<Alert>)
    ensures |rows| == 0 ==> r.None?
    ensures |rows| > 0 ==> exists k :: IsNewest(rows, k) && r == Evaluate(rows[k], cfg, fmt)
  {
    match Latest(rows)
    case None => None
    case Some(x) =>
      assert IsNewest(rows, LatestIndex(rows));
      Evaluate(x, cfg, fmt)
  }

  /** Rows older than the newest one have no influence on the alert. */
  lemma OlderRowDoesNotChangeAlert(rows: seq<Row>, y: Row, cfg: Thresholds, fmt: Render)
    requires |rows| > 0
    requires y.timestamp < rows[LatestIndex(rows)].timestamp
    ensures AlertCheck(rows + [y], cfg, fmt) == AlertCheck(rows, cfg, fmt)
  {
    OlderRowKeepsLatest(rows, y);
  }

  /** CPU at 95%, RAM at 50% and battery at 15% under the default limits alert
      on CPU and battery, in that order, and the body has no RAM section. */
  lemma CpuAndBatteryExample(x: Row, fmt: Render)
    requires x.cpuPercent == 95.0 && x.memPercent == 50.0 && x.batteryPercent == 15.0
    ensures Evaluate(x, Defaults, fmt).Some?
    ensures Evaluate(x, Defaults, fmt).value.subject == "System Alert: High CPU, Low Battery"
    ensures Heading(Ram, x, Defaults, fmt) !in Evaluate(x, Defaults, fmt).value.lines
  {
    var kinds := Triggered(x, Defaults);
    assert kinds == [Cpu, Battery];
    assert Evaluate(x, Defaults, fmt) == Some(Alert(Subject(kinds), BodyLines(kinds, x, Defaults, fmt)));
    CpuAndBatterySubject();
    assert !Fires(Ram, x, Defaults);
  }

  lemma CpuAndBatterySubject()
    ensures Subject([Cpu, Battery]) == "System Alert: High CPU, Low Battery"
  {
    SubjectOfTwo(Cpu, Battery);
  }

  /** The subject of two checks, spelled out. */
  lemma SubjectOfTwo(a: Check, b: Check)
    ensures Subject([a, b]) == SubjectPrefix + Tag(a) + ListSeparator + Tag(b)
  {
    var tags := TagsOf([a, b]);
    assert tags == [Tag(a), Tag(b)];
    assert tags[1..] == [Tag(b)];
    assert Join(tags, ListSeparator) == Tag(a) + ListSeparator + Tag(b);
  }

  /** Equal values trigger: the CPU and RAM limits are maxima reached at the
      limit, the battery limit is a minimum reached at the limit. */
  lemma BoundariesTrigger(x: Row, cfg: Thresholds)
    ensures x.cpuPercent == cfg.maxCpuPercent ==> Cpu in Triggered(x, cfg)
    ensures x.memPercent == cfg.maxRamPercent ==> Ram in Triggered(x, cfg)
    ensures x.batteryPercent == cfg.minBatteryPercent ==> Battery in Triggered(x, cfg)
  {
  }
}

=== FILE: mailer.dfy ===
/** `send_alert`: builds the e-mail from the subject, the body and the mail
    settings, then runs the SMTP session. Whatever the relay does, the outcome
    is a `Delivery` value: a failure inside the session is printed and never
    reaches the caller. */
module AlertMailer {
  import opened Text

  /** The configured recipient setting: a single address, or a list of them. */
  datatype Recipients = Single(address: string) | List(addresses: seq<string>)

  /** The mail settings of the configuration module. */
  datatype EmailSettings = EmailSettings(server: string, port: int, password: string, from: string, to: Recipients)

  /** The headers and content of the e-mail. */
  datatype Message = Message(subject: string, from: string, to: string, content: string)

  /** The `To` header: a list is joined with `", "`, a single value is used as
      it is. A list without commas in its addresses can be read back from it. */
  function ToHeader(to: Recipients): (r: string)
    ensures to.Single? ==> r == to.address
    ensures to.List? && Readable(to.addresses) ==> SplitList(r) == to.addresses
  {
    match to
    case List(addresses) =>
      if Readable(addresses) then
        SplitJoin(addresses);
        Join(addresses, ListSeparator)
      else
        Join(addresses, ListSeparator)
    case Single(address) => address
  }

  /** A non-empty list of addresses none of which holds a comma. */
  predicate Readable(addresses: seq<string>)
  {
    |addresses| > 0 && forall i :: 0 <= i < |addresses| ==> NoComma(addresses[i])
  }

  /** A one-element list and the single address give the same header. */
  lemma SingleIsOneElementList(address: string)
    ensures ToHeader(List([address])) == ToHeader(Single(address))
  {
  }

  /** The e-mail `send_alert` builds before it opens any connection. */
  function BuildMessage(settings: EmailSettings, subject: string, body: string): (m: Message)
    ensures m.subject == subject && m.content == body && m.from == settings.from
    ensures settings.to.Single? ==> m.to == settings.to.address
    ensures settings.to.List? && Readable(settings.to.addresses) ==> SplitList(m.to) == settings.to.addresses
  {
    Message(subject, settings.from, ToHeader(settings.to), body)
  }

  /** The commands of an SMTP session, as the relay sees them. */
  datatype Step =
    | Connect(host: string, port: int)
    | StartTls
    | Login(user: string, password: string)
    | SendMessage(msg: Message)
    | Quit

  /** The position of a command in the session; `Quit` closes it. */
  function StepRank(s: Step): nat
  {
    match s
    case Connect(_, _) => 0
    case StartTls => 1
    case Login(_, _) => 2
    case SendMessage(_) => 3
    case Quit => 4
  }

  /** The part of the session during which the relay may raise. */
  datatype Phase = Connecting | Securing | Authenticating | Sending | Closing

  /** The position, in the session, of the command during which a phase's
      exception is raised: `Closing` is the QUIT of leaving the `with` block. */
  function PhaseRank(p: Phase): nat
  {
    match p
    case Connecting => 0
    case Securing => 1
    case Authenticating => 2
    case Sending => 3
    case Closing => 4
  }

  /** How many commands other than the closing QUIT a session issued. */
  function Commands(steps: seq<Step>): nat
  {
    if |steps| > 0 && steps[|steps| - 1].Quit? then |steps| - 1 else |steps|
  }

  /** How the relay behaves, an input of the model: every command succeeds, or
      the command of one phase raises an exception with the given message. */
  datatype Relay = Healthy | Raises(phase: Phase, error: string)

  /** What one call of `send_alert` did: the commands issued, whether the relay
      accepted the message, and the lines printed. */
  datatype Delivery = Delivery(steps: seq<Step>, delivered: bool, printed: seq<string>)

  /** The line printed for a failure, followed by the exception's message. */
  const FailurePrefix: string := "\U{274C} Failed to send email: "

  /** `send_alert`: connect, STARTTLS, log in as the sender, send the message;
      leaving the `with` block issues QUIT once a connection exists. Any
      exception inside the `try` is caught and printed. */
  function SendAlert(settings: EmailSettings, subject: string, body: string, relay: Relay): (d: Delivery)
    ensures |d.steps| > 0 && d.steps[0] == Connect(settings.server, settings.port)
    ensures forall i :: 0 <= i < |d.steps| && !d.steps[i].Quit? ==> StepRank(d.steps[i]) == i
    ensures forall i :: 0 <= i < |d.steps| - 1 ==> !d.steps[i].Quit?
    ensures forall i :: 0 <= i < |d.steps| && d.steps[i].Login? ==> d.steps[i] == Login(settings.from, settings.password)
    ensures forall i :: 0 <= i < |d.steps| && d.steps[i].SendMessage? ==>
      d.steps[i].msg == BuildMessage(settings, subject, body)
    ensures Quit in d.steps <==> !(relay.Raises? && relay.phase == Connecting)
    ensures d.delivered <==> relay.Healthy? || relay.phase == Closing
    ensures d.delivered ==> SendMessage(BuildMessage(settings, subject, body)) in d.steps
    ensures relay.Raises? && relay.phase != Closing ==> Commands(d.steps) == PhaseRank(relay.phase) + 1
    ensures relay.Healthy? ==> d.printed == []
    ensures relay.Raises? ==> d.printed == [FailurePrefix + relay.error]
  {
    var connect := Connect(settings.server, settings.port);
    var login := Login(settings.from, settings.password);
    var send := SendMessage(BuildMessage(settings, subject, body));
    match relay
    case Healthy => Delivery([connect, StartTls, login, send, Quit], true, [])
    case Raises(phase, e) =>
      var report := [FailurePrefix + e];
      match phase
      case Connecting => Delivery([connect], false, report)
      case Securing => Delivery([connect, StartTls, Quit], false, report)
      case Authenticating => Delivery([connect, StartTls, login, Quit], false, report)
      case Sending => Delivery([connect, StartTls, login, send, Quit], false, report)
      case Closing => Delivery([connect, StartTls, login, send, Quit], true, report)
  }
}

=== FILE: sampler.dfy ===
/** The three sampling functions of the collector and the 11-value data vector
    the collection cycle builds from them. What the operating system reports
    is an input of arbitrary value; only the shape of each result is modelled. */
module MetricSampler {
  import opened Wrappers
  import opened MetricStore

  /** What `psutil` reports about the processor in one sampling: overall and
      per-core utilisation, cumulative CPU-state times and the frequency. The
      interrupt and DPC times exist only where psutil reports them (Windows);
      elsewhere reading them raises `AttributeError`. */
  datatype CpuReading = CpuReading(
    percent: real, perCorePercent: seq<real>,
    user: real, system: real, idle: real, interrupt: Option<real>, dpc: Option<real>,
    freqCurrent: real, freqMin: real, freqMax: real)

  /** What `psutil` reports about physical memory, in bytes and percent. */
  datatype MemoryReading = MemoryReading(total: int, available: int, percent: real, used: int, free: int)

  /** What `psutil` reports about a battery that exists; `secsLeft` may be one
      of the negative sentinels below instead of a number of seconds. On a
      machine without a battery `sensors_battery()` reports `None`. */
  datatype BatteryReading = BatteryReading(percent: real, powerPlugged: bool, secsLeft: int)

  /** `psutil`'s sentinels for an unknown and an unlimited remaining time. */
  const PowerTimeUnknown: int := -1
  const PowerTimeUnlimited: int := -2

  /** The tuple `cpu_data` returns. */
  datatype CpuTuple = CpuTuple(percent: real, user: real, system: real, idle: real)

  /** The tuple `virtual_memory_data` returns. */
  datatype MemoryTuple = MemoryTuple(total: int, available: int, percent: real, used: int)

  /** The tuple `battery_data` returns. */
  datatype BatteryTuple = BatteryTuple(percent: real, plugged: bool, timeLeft: int)

  /** `cpu_data`: utilisation and the user, system and idle times; per-core
      utilisation, interrupt and DPC times and the frequency are read and
      dropped. Reading an interrupt or DPC time psutil does not report raises. */
  function CpuData(c: CpuReading): (r: Option<CpuTuple>)
    ensures r.None? <==> c.interrupt.None? || c.dpc.None?
    ensures r.Some? ==>
      r.value.percent == c.percent && r.value.user == c.user && r.value.system == c.system && r.value.idle == c.idle
  {
    if c.interrupt.None? || c.dpc.None? then None
    else Some(CpuTuple(c.percent, c.user, c.system, c.idle))
  }

  /** `virtual_memory_data`: total, available, percent and used; free is read and dropped. */
  function VirtualMemoryData(m: MemoryReading): (t: MemoryTuple)
    ensures t.total == m.total && t.available == m.available && t.percent == m.percent && t.used == m.used
  {
    MemoryTuple(m.total, m.available, m.percent, m.used)
  }

  /** The readings the collector samples and never stores have no influence on
      what it stores: per-core utilisation, the interrupt and DPC times (once
      present), the frequency and the free memory. */
  lemma UnstoredReadingsIgnored(c: CpuReading, c': CpuReading, m: MemoryReading, m': MemoryReading)
    requires c.percent == c'.percent && c.user == c'.user && c.system == c'.system && c.idle == c'.idle
    requires (c.interrupt.Some? && c.dpc.Some?) == (c'.interrupt.Some? && c'.dpc.Some?)
    requires m.total == m'.total && m.available == m'.available && m.percent == m'.percent && m.used == m'.used
    ensures CpuData(c) == CpuData(c') && VirtualMemoryData(m) == VirtualMemoryData(m')
  {
  }

  /** `battery_data`: charge, plug state and the absolute value of the remaining
      time; without a battery, reading its percent raises. */
  function BatteryData(b: Option<BatteryReading>): (t: Option<BatteryTuple>)
    ensures t.None? <==> b.None?
    ensures t.Some? ==> t.value.percent == b.value.percent && t.value.plugged == b.value.powerPlugged
    ensures t.Some? ==> t.value.timeLeft >= 0
    ensures t.Some? ==> t.value.timeLeft == b.value.secsLeft || t.value.timeLeft == -b.value.secsLeft
  {
    match b
    case None => None
    case Some(x) => Some(BatteryTuple(x.percent, x.powerPlugged, if x.secsLeft < 0 then -x.secsLeft else x.secsLeft))
  }

  /** Taking the absolute value turns the sentinels into plausible durations of
      one and two seconds, indistinguishable from real readings. */
  lemma SentinelsStoredAsSeconds(plugged: bool, p: real)
    ensures BatteryData(Some(BatteryReading(p, plugged, PowerTimeUnknown))) == BatteryData(Some(BatteryReading(p, plugged, 1)))
    ensures BatteryData(Some(BatteryReading(p, plugged, PowerTimeUnlimited))) == BatteryData(Some(BatteryReading(p, plugged, 2)))
  {
  }

  /** Python binds `True` and `False` as the integers 1 and 0. */
  function BoolValue(b: bool): SqlValue
  {
    if b then Integer(1) else Integer(0)
  }

  /** `data.extend(cpu_data())`, then the memory tuple, then the battery tuple. */
  function DataVector(c: CpuTuple, m: MemoryTuple, b: BatteryTuple): (v: seq<SqlValue>)
    ensures |v| == ColumnCount == |InsertColumns|
  {
    [Real(c.percent), Real(c.user), Real(c.system), Real(c.idle)]
    + [Integer(m.total), Integer(m.available), Real(m.percent), Integer(m.used)]
    + [Real(b.percent), BoolValue(b.plugged), Integer(b.timeLeft)]
  }

  /** Binding the data vector stores every sampled value under its own column:
      `cpu_percent` through `cpu_times_idle` from the CPU tuple,
      `sys_mem_total` through `sys_mem_used` from the memory tuple, and
      `bat_per`, `charger_plug` and `time_left` from the battery tuple. */
  lemma {:induction false} VectorFillsColumns(id: int, now: Timestamp, c: CpuTuple, m: MemoryTuple, b: BatteryTuple)
    ensures var x := BindRow(id, now, DataVector(c, m, b));
      && x.id == id && x.timestamp == now
      && x.cpuPercent == c.percent && x.cpuTimesUser == c.user
      && x.cpuTimesSystem == c.system && x.cpuTimesIdle == c.idle
      && x.memTotal == m.total as real && x.memAvail == m.available as real
      && x.memPercent == m.percent && x.memUsed == m.used as real
      && x.batteryPercent == b.percent
      && x.chargerPlug == BoolValue(b.plugged)
      && x.timeLeft == Integer(b.timeLeft)
  {
  }

  /** The data vector of one sampling, or nothing when a sampler raises: the
      three tuples are built in turn, and the first exception ends the run. */
  function Sample(c: CpuReading, m: MemoryReading, b: Option<BatteryReading>): (r: Option<seq<SqlValue>>)
    ensures r.None? <==> CpuData(c).None? || BatteryData(b).None?
    ensures r.Some? ==> |r.value| == ColumnCount
    ensures r.Some? ==> r.value == DataVector(CpuData(c).value, VirtualMemoryData(m), BatteryData(b).value)
  {
    match (CpuData(c), BatteryData(b))
    case (Some(ct), Some(bt)) => Some(DataVector(ct, VirtualMemoryData(m), bt))
    case _ => None
  }

  /** The stored `time_left` of a sampled battery is never negative. */
  lemma StoredTimeLeftNonNegative(id: int, now: Timestamp, c: CpuReading, m: MemoryReading, b: Option<BatteryReading>)
    requires Sample(c, m, b).Some?
    ensures var x := BindRow(id, now, Sample(c, m, b).value);
      x.timeLeft.Integer? && x.timeLeft.i >= 0
  {
    VectorFillsColumns(id, now, CpuData(c).value, VirtualMemoryData(m), BatteryData(b).value);
  }
}

=== FILE: store.dfy ===
/** The `system_metrics` table: its schema, the append that `insert_metrics`
    performs, and the read queries the monitoring code runs against it.
    The table is a sequence of rows in insertion order; SQL connection and
    commit mechanics are not modelled. */
module MetricStore {
  import opened Wrappers

  /** A collection instant in whole seconds of local time, the resolution of
      SQLite's `datetime('now', 'localtime')` text. */
  type Timestamp = int

  /** A value bound to an SQL parameter: Python ints and bools bind as
      integers, Python floats as reals. */
  datatype SqlValue = Integer(i: int) | Real(r: real)

  /** One stored sample. Columns declared REAL hold reals; the two INTEGER
      columns keep whatever value SQLite's integer affinity leaves. */
  datatype Row = Row(
    id: int,
    timestamp: Timestamp,
    cpuPercent: real,
    cpuTimesUser: real,
    cpuTimesSystem: real,
    cpuTimesIdle: real,
    memTotal: real,
    memAvail: real,
    memPercent: real,
    memUsed: real,
    batteryPercent: real,
    chargerPlug: SqlValue,
    timeLeft: SqlValue)

  /** The database: either the table does not exist yet, or it holds its rows
      and the AUTOINCREMENT counter (the largest id ever handed out). */
  datatype Db = NoTable | Table(rows: seq<Row>, lastId: int)

  /** The errors `insert_metrics` can raise. */
  datatype DbError =
    | NoSuchTable               // the table was never created
    | BindingCount(given: nat)  // the data vector does not have one value per column
    | Full                      // AUTOINCREMENT has used up the largest 64-bit id

  /** The largest rowid SQLite can assign. */
  const MaxRowId: int := 0x7FFF_FFFF_FFFF_FFFF

  /** The eleven columns `insert_metrics` fills, as the schema declares them;
      `id` and `timestamp` are filled by SQLite itself. */
  datatype Column =
    | CpuPercent | CpuTimesUser | CpuTimesSystem | CpuTimesIdle
    | SysMemTotal | SysMemAvail | SysMemPerc | SysMemUsed
    | BatPer | ChargerPlug | TimeLeft

  /** The columns `insert_metrics` names, in the order it binds the values. */
  const InsertColumns: seq<Column> := [
    CpuPercent, CpuTimesUser, CpuTimesSystem, CpuTimesIdle,
    SysMemTotal, SysMemAvail, SysMemPerc, SysMemUsed,
    BatPer, ChargerPlug, TimeLeft]

  /** How many values one insert binds. */
  const ColumnCount: nat := 11

  /** The window the charting queries read. */
  const WindowSize: nat := 50

  /** The state AUTOINCREMENT maintains: ids are positive, strictly increasing in
      insertion order, and never above the counter, which fits in 64 bits. */
  predicate WellFormed(db: Db)
  {
    db.Table? ==>
      && 0 <= db.lastId <= MaxRowId
      && (forall i :: 0 <= i < |db.rows| ==> 1 <= db.rows[i].id <= db.lastId)
      && (forall i, j :: 0 <= i < j < |db.rows| ==> db.rows[i].id < db.rows[j].id)
  }

  // ---------------------------------------------------------------------------
  // Schema and insert
  // ---------------------------------------------------------------------------

  /** `setup_db`: `CREATE TABLE IF NOT EXISTS`. */
  function Setup(db: Db): (r: Db)
    ensures r.Table?
    ensures db.Table? ==> r == db
    ensures db.NoTable? ==> r.rows == [] && WellFormed(r)
  {
    if db.Table? then db else Table([], 0)
  }

  /** Running `setup_db` again changes nothing, and it keeps the id invariant. */
  lemma SetupIdempotent(db: Db)
    ensures Setup(Setup(db)) == Setup(db)
    ensures WellFormed(db) ==> WellFormed(Setup(db))
  {
  }

  /** The value a REAL column stores: an integer is converted to a real. */
  function RealColumn(v: SqlValue): real
  {
    match v
    case Integer(i) => i as real
    case Real(x) => x
  }

  /** The value an INTEGER column stores: a real with an exact 64-bit integer
      value is converted to that integer, anything else is kept as given. */
  function IntegerColumn(v: SqlValue): (r: SqlValue)
    ensures r.Integer? ==> RealColumn(r) == RealColumn(v)
    ensures v.Integer? ==> r == v
  {
    match v
    case Integer(_) => v
    case Real(x) =>
      if x == x.Floor as real && -MaxRowId - 1 <= x.Floor <= MaxRowId then Integer(x.Floor) else v
  }

  /** Whether a column was declared `INTEGER` (otherwise it is `REAL`). */
  predicate IntegerAffinity(c: Column)
  {
    c == ChargerPlug || c == TimeLeft
  }

  /** The value a column keeps when `v` is bound to it. */
  function Coerce(c: Column, v: SqlValue): SqlValue
  {
    if IntegerAffinity(c) then IntegerColumn(v) else Real(RealColumn(v))
  }

  /** What `SELECT <column>` reads from a row. */
  function ColumnValue(x: Row, c: Column): SqlValue
  {
    match c
    case CpuPercent => Real(x.cpuPercent)
    case CpuTimesUser => Real(x.cpuTimesUser)
    case CpuTimesSystem => Real(x.cpuTimesSystem)
    case CpuTimesIdle => Real(x.cpuTimesIdle)
    case SysMemTotal => Real(x.memTotal)
    case SysMemAvail => Real(x.memAvail)
    case SysMemPerc => Real(x.memPercent)
    case SysMemUsed => Real(x.memUsed)
    case BatPer => Real(x.batteryPercent)
    case ChargerPlug => x.chargerPlug
    case TimeLeft => x.timeLeft
  }

  /** The row the INSERT stores, with the id AUTOINCREMENT assigns and the
      default timestamp; see `BindRowByColumn` for where each value lands. */
  function BindRow(id: int, now: Timestamp, data: seq<SqlValue>): (x: Row)
    requires |data| == ColumnCount
    ensures x.id == id && x.timestamp == now
  {
    Row(id, now,
        RealColumn(data[0]), RealColumn(data[1]), RealColumn(data[2]), RealColumn(data[3]),
        RealColumn(data[4]), RealColumn(data[5]), RealColumn(data[6]), RealColumn(data[7]),
        RealColumn(data[8]), IntegerColumn(data[9]), IntegerColumn(data[10]))
  }

  /** The `i`-th bound value lands, under its column's affinity, in the `i`-th
      column the INSERT names: selecting that column reads it back. */
  lemma BindRowByColumn(id: int, now: Timestamp, data: seq<SqlValue>)
    requires |data| == ColumnCount
    ensures forall i :: 0 <= i < ColumnCount ==>
      ColumnValue(BindRow(id, now, data), InsertColumns[i]) == Coerce(InsertColumns[i], data[i])
  {
  }

  /** A row is determined by its id, its timestamp and what its eleven data
      columns read: selecting every column gives the row back. */
  lemma RowsEqualByColumns(x: Row, y: Row)
    requires x.id == y.id && x.timestamp == y.timestamp
    requires forall i :: 0 <= i < ColumnCount ==> ColumnValue(x, InsertColumns[i]) == ColumnValue(y, InsertColumns[i])
    ensures x == y
  {
    assert ColumnValue(x, InsertColumns[0]) == ColumnValue(y, InsertColumns[0]);
    assert ColumnValue(x, InsertColumns[1]) == ColumnValue(y, InsertColumns[1]);
    assert ColumnValue(x, InsertColumns[2]) == ColumnValue(y, InsertColumns[2]);
    assert ColumnValue(x, InsertColumns[3]) == ColumnValue(y, InsertColumns[3]);
    assert ColumnValue(x, InsertColumns[4]) == ColumnValue(y, InsertColumns[4]);
    assert ColumnValue(x, InsertColumns[5]) == ColumnValue(y, InsertColumns[5]);
    assert ColumnValue(x, InsertColumns[6]) == ColumnValue(y, InsertColumns[6]);
    assert ColumnValue(x, InsertColumns[7]) == ColumnValue(y, InsertColumns[7]);
    assert ColumnValue(x, InsertColumns[8]) == ColumnValue(y, InsertColumns[8]);
    assert ColumnValue(x, InsertColumns[9]) == ColumnValue(y, InsertColumns[9]);
    assert ColumnValue(x, InsertColumns[10]) == ColumnValue(y, InsertColumns[10]);
  }

  /** `insert_metrics`: appends one row whose id AUTOINCREMENT assigns and whose
      timestamp is the column default, the current local time `now`. */
  function Insert(db: Db, data: seq<SqlValue>, now: Timestamp): (r: Result<Db, DbError>)
    ensures db.NoTable? ==> r == Err(NoSuchTable)
    ensures db.Table? && |data| != ColumnCount ==> r == Err(BindingCount(|data|))
    ensures db.Table? && |data| == ColumnCount ==> (r.Err? <==> db.lastId >= MaxRowId)
    ensures r.Err? && db.Table? && |data| == ColumnCount ==> r.error == Full
    ensures r.Ok? ==>
      && db.Table? && r.value.Table? && |data| == ColumnCount
      && |r.value.rows| == |db.rows| + 1
      && r.value.rows[..|db.rows|] == db.rows
      && r.value.lastId == db.lastId + 1
      && r.value.rows[|db.rows|] == BindRow(db.lastId + 1, now, data)
      && (WellFormed(db) ==> forall i :: 0 <= i < |db.rows| ==> db.rows[i].id < r.value.lastId)
  {
    if db.NoTable? then Err(NoSuchTable)
    else if |data| != ColumnCount then Err(BindingCount(|data|))
    else if db.lastId >= MaxRowId then Err(Full)
    else
      var id := db.lastId + 1;
      Ok(Table(db.rows + [BindRow(id, now, data)], id))
  }

  /** Inserting keeps the AUTOINCREMENT invariant. */
  lemma InsertPreservesWellFormed(db: Db, data: seq<SqlValue>, now: Timestamp)
    requires WellFormed(db)
    ensures Insert(db, data, now).Ok? ==> WellFormed(Insert(db, data, now).value)
  {
  }

  // ---------------------------------------------------------------------------
  // Ordering by timestamp
  // ---------------------------------------------------------------------------

  /** Rows in non-decreasing timestamp order. */
  predicate Ascending(s: seq<Row>)
  {
    forall i, j :: 0 <= i < j < |s| ==> s[i].timestamp <= s[j].timestamp
  }

  /** Puts `x` into an ascending sequence, before every row not older than it. */
  function InsertByTime(x: Row, s: seq<Row>): (r: seq<Row>)
    requires Ascending(s)
    ensures Ascending(r)
    ensures multiset(r) == multiset(s) + multiset{x}
    ensures |r| == |s| + 1
    ensures r[0] == x || (|s| > 0 && r[0] == s[0])
    decreases |s|
  {
    if |s| == 0 then [x]
    else if x.timestamp <= s[0].timestamp then [x] + s
    else
      var t := InsertByTime(x, s[1..]);
      assert s[0].timestamp <= t[0].timestamp;
      AscendingCons(s[0], t);
      assert s == [s[0]] + s[1..];
      [s[0]] + t
  }

  /** A row no newer than the head of an ascending sequence can go in front of it. */
  lemma AscendingCons(a: Row, t: seq<Row>)
    requires Ascending(t) && |t| > 0
    requires a.timestamp <= t[0].timestamp
    ensures Ascending([a] + t)
  {
    var u := [a] + t;
    forall i, j | 0 <= i < j < |u|
      ensures u[i].timestamp <= u[j].timestamp
    {
      if i > 0 {
        assert u[i] == t[i - 1] && u[j] == t[j - 1];
      } else {
        assert u[j] == t[j - 1];
      }
    }
  }

  /** The table ordered by timestamp ascending (`ORDER BY timestamp`); rows with
      equal timestamps keep their insertion order. */
  function SortByTime(s: seq<Row>): (r: seq<Row>)
    ensures Ascending(r)
    ensures multiset(r) == multiset(s)
    ensures |r| == |s|
    decreases |s|
  {
    if |s| == 0 then []
    else
      assert s == [s[0]] + s[1..];
      InsertByTime(s[0], SortByTime(s[1..]))
  }

  /** A table whose rows were inserted in timestamp order is already sorted. */
  lemma {:induction false} SortAscendingIsIdentity(s: seq<Row>)
    requires Ascending(s)
    ensures SortByTime(s) == s
    decreases |s|
  {
    if |s| > 0 {
      SortAscendingIsIdentity(s[1..]);
      assert [s[0]] + s[1..] == s;
    }
  }

  // ---------------------------------------------------------------------------
  // Queries
  // ---------------------------------------------------------------------------

  /** `k` holds a row no other row is newer than. */
  predicate IsNewest(s: seq<Row>, k: int)
  {
    0 <= k < |s| && forall i :: 0 <= i < |s| ==> s[i].timestamp <= s[k].timestamp
  }

  /** Where `ORDER BY timestamp DESC LIMIT 1` finds its row: a newest one. SQL
      leaves the choice among equal timestamps open; this model takes the one
      inserted last. */
  function LatestIndex(s: seq<Row>): (k: nat)
    requires |s| > 0
    ensures IsNewest(s, k)
    ensures forall i :: k < i < |s| ==> s[i].timestamp < s[k].timestamp
    decreases |s|
  {
    if |s| == 1 then 0
    else
      var k := LatestIndex(s[..|s| - 1]);
      assert forall i :: 0 <= i < |s| - 1 ==> s[i] == s[..|s| - 1][i];
      if s[|s| - 1].timestamp >= s[k].timestamp then |s| - 1 else k
  }

  /** The single-row query of `alert_check` and `get_cpu_time_distribution`:
      nothing for an empty table, otherwise a row with the greatest timestamp. */
  function Latest(s: seq<Row>): (r: Option<Row>)
    ensures r.None? <==> |s| == 0
    ensures r.Some? ==> r.value in s && forall i :: 0 <= i < |s| ==> s[i].timestamp <= r.value.timestamp
  {
    if |s| == 0 then None else Some(s[LatestIndex(s)])
  }

  /** With distinct timestamps the newest row is unique, so every admissible
      answer to the query is the one `Latest` gives. */
  lemma LatestUnique(s: seq<Row>, k: int)
    requires forall i, j :: 0 <= i < j < |s| ==> s[i].timestamp != s[j].timestamp
    requires IsNewest(s, k)
    ensures Latest(s) == Some(s[k])
  {
    var m := LatestIndex(s);
    assert s[m].timestamp == s[k].timestamp;
  }

  /** A row appended with a strictly newer timestamp is what the query returns next. */
  lemma NewerRowBecomesLatest(s: seq<Row>, x: Row)
    requires forall i :: 0 <= i < |s| ==> s[i].timestamp < x.timestamp
    ensures Latest(s + [x]) == Some(x)
  {
    var t := s + [x];
    assert t[|s|] == x;
    assert forall i :: 0 <= i < |s| ==> t[i] == s[i];
  }

  /** A row appended with a strictly older timestamp than the newest one does
      not change what the query returns. */
  lemma OlderRowKeepsLatest(s: seq<Row>, x: Row)
    requires |s| > 0
    requires x.timestamp < s[LatestIndex(s)].timestamp
    ensures Latest(s + [x]) == Latest(s)
    ensures forall k :: 0 <= k <= |s| ==> (IsNewest(s + [x], k) <==> k < |s| && IsNewest(s, k))
  {
    var t := s + [x];
    assert t[..|t| - 1] == s;
  }

  /** The inner query `ORDER BY timestamp DESC LIMIT n`, re-sorted ascending by
      the outer `ORDER BY timestamp`: the `min(n, |s|)` newest rows, oldest first.
      A row left out is no newer than any row kept. */
  function RecentRows(s: seq<Row>, n: nat): (r: seq<Row>)
    ensures |r| == if n < |s| then n else |s|
    ensures Ascending(r)
    ensures multiset(r) <= multiset(s)
    ensures forall k, j :: 0 <= k < |s| && 0 <= j < |r| && s[k] !in r ==> s[k].timestamp <= r[j].timestamp
  {
    var sorted := SortByTime(s);
    var cut := if n < |s| then |s| - n else 0;
    SuffixKeepsNewest(s, sorted, cut);
    sorted[cut..]
  }

  /** A suffix of the sorted table holds rows of the table, and every row of the
      table outside it is no newer than the rows inside it. */
  lemma SuffixKeepsNewest(s: seq<Row>, sorted: seq<Row>, cut: nat)
    requires Ascending(sorted) && multiset(sorted) == multiset(s) && cut <= |sorted|
    ensures Ascending(sorted[cut..])
    ensures multiset(sorted[cut..]) <= multiset(s)
    ensures forall k, j :: 0 <= k < |s| && 0 <= j < |sorted| - cut && s[k] !in sorted[cut..] ==> s[k].timestamp <= sorted[cut..][j].timestamp
  {
    var r := sorted[cut..];
    assert sorted == sorted[..cut] + r;
    forall k, j | 0 <= k < |s| && 0 <= j < |r| && s[k] !in r
      ensures s[k].timestamp <= r[j].timestamp
    {
      assert s[k] in multiset(sorted);
      var i :| 0 <= i < |sorted| && sorted[i] == s[k];
      assert i < cut;
      assert r[j] == sorted[cut + j];
    }
  }

  /** `w` is an answer the nested query may give for a window of `n`: the
      `min(n, |s|)` rows it keeps are stored rows, oldest first, and no row it
      leaves out is newer than a row it keeps. Ties at the cut are SQL's choice. */
  predicate IsWindow(s: seq<Row>, w: seq<Row>, n: nat)
  {
    && |w| == (if n < |s| then n else |s|)
    && Ascending(w)
    && multiset(w) <= multiset(s)
    && forall k, j :: 0 <= k < |s| && 0 <= j < |w| && s[k] !in w ==> s[k].timestamp <= w[j].timestamp
  }

  /** On a table filled in timestamp order, the window is simply its last rows. */
  lemma RecentRowsOfAscending(s: seq<Row>, n: nat)
    requires Ascending(s)
    ensures RecentRows(s, n) == s[(if n < |s| then |s| - n else 0)..]
  {
    SortAscendingIsIdentity(s);
  }

  /** One point of `get_percent_data_from_db`. */
  datatype PercentPoint = PercentPoint(timestamp: Timestamp, cpuPercent: real, batteryPercent: real, memPercent: real)

  /** One point of `get_ram_data_from_db`. */
  datatype RamPoint = RamPoint(timestamp: Timestamp, total: real, used: real, avail: real)

  /** One point of `get_cpu_time_trend`. */
  datatype CpuTimePoint = CpuTimePoint(timestamp: Timestamp, user: real, system: real, idle: real)

  function PercentOf(x: Row): PercentPoint
  {
    PercentPoint(x.timestamp, x.cpuPercent, x.batteryPercent, x.memPercent)
  }

  function RamOf(x: Row): RamPoint
  {
    RamPoint(x.timestamp, x.memTotal, x.memUsed, x.memAvail)
  }

  function CpuTimeOf(x: Row): CpuTimePoint
  {
    CpuTimePoint(x.timestamp, x.cpuTimesUser, x.cpuTimesSystem, x.cpuTimesIdle)
  }

  /** The percentage point of each row, in the same order. */
  function PercentOfs(w: seq<Row>): (r: seq<PercentPoint>)
    ensures |r| == |w| && forall i :: 0 <= i < |w| ==> r[i] == PercentOf(w[i])
  {
    seq(|w|, i requires 0 <= i < |w| => PercentOf(w[i]))
  }

  /** The memory point of each row, in the same order. */
  function RamOfs(w: seq<Row>): (r: seq<RamPoint>)
    ensures |r| == |w| && forall i :: 0 <= i < |w| ==> r[i] == RamOf(w[i])
  {
    seq(|w|, i requires 0 <= i < |w| => RamOf(w[i]))
  }

  /** Every row of a window is a row of the table. */
  lemma WindowRowsStored(s: seq<Row>, w: seq<Row>, i: int)
    requires multiset(w) <= multiset(s)
    requires 0 <= i < |w|
    ensures exists k :: 0 <= k < |s| && s[k] == w[i]
  {
    assert w[i] in multiset(w);
    assert w[i] in s;
  }

  /** Removing the `k`-th row and its projection keeps rows and projections
      aligned, and takes exactly one copy of each out of the multisets. */
  lemma DropAt<T>(s: seq<Row>, f: Row -> T, ps: seq<T>, k: int) returns (s': seq<Row>, ps': seq<T>)
    requires |ps| == |s| && forall i :: 0 <= i < |s| ==> ps[i] == f(s[i])
    requires 0 <= k < |s|
    ensures |ps'| == |s'| && forall i :: 0 <= i < |s'| ==> ps'[i] == f(s'[i])
    ensures multiset(s) == multiset(s') + multiset{s[k]}
    ensures multiset(ps) == multiset(ps') + multiset{f(s[k])}
  {
    s', ps' := s[..k] + s[k + 1..], ps[..k] + ps[k + 1..];
    assert s == s[..k] + [s[k]] + s[k + 1..];
    assert ps == ps[..k] + [ps[k]] + ps[k + 1..];
    forall i | 0 <= i < |s'|
      ensures ps'[i] == f(s'[i])
    {
      if i < k {
        assert ps'[i] == ps[i] && s'[i] == s[i];
      } else {
        assert ps'[i] == ps[i + 1] && s'[i] == s[i + 1];
      }
    }
  }

  /** Projecting every row of a sub-multiset of the table gives a sub-multiset
      of the projections of the table: no row is read twice. */
  lemma {:induction false} ProjectSubMultiset<T>(w: seq<Row>, s: seq<Row>, f: Row -> T, pw: seq<T>, ps: seq<T>)
    requires multiset(w) <= multiset(s)
    requires |pw| == |w| && forall i :: 0 <= i < |w| ==> pw[i] == f(w[i])
    requires |ps| == |s| && forall i :: 0 <= i < |s| ==> ps[i] == f(s[i])
    ensures multiset(pw) <= multiset(ps)
    decreases |w|
  {
    if |w| > 0 {
      var x := w[0];
      assert w == [x] + w[1..];
      assert x in multiset(s);
      var k :| 0 <= k < |s| && s[k] == x;
      var s', ps' := DropAt(s, f, ps, k);
      assert multiset(w) == multiset(w[1..]) + multiset{x};
      forall y
        ensures multiset(w[1..])[y] <= multiset(s')[y]
      {
        assert multiset(w)[y] <= multiset(s)[y];
      }
      assert multiset(w[1..]) <= multiset(s');
      ProjectSubMultiset(w[1..], s', f, pw[1..], ps');
      assert pw == [f(x)] + pw[1..];
    }
  }

  /** Projections of a window: each is the projection of a distinct stored row,
      and a row whose projection is missing is no newer than any row kept. */
  lemma WindowProjection<T>(s: seq<Row>, w: seq<Row>, f: Row -> T, pw: seq<T>, ps: seq<T>)
    requires multiset(w) <= multiset(s)
    requires forall k, j :: 0 <= k < |s| && 0 <= j < |w| && s[k] !in w ==> s[k].timestamp <= w[j].timestamp
    requires |pw| == |w| && forall i :: 0 <= i < |w| ==> pw[i] == f(w[i])
    requires |ps| == |s| && forall i :: 0 <= i < |s| ==> ps[i] == f(s[i])
    ensures multiset(pw) <= multiset(ps)
    ensures forall k, j :: 0 <= k < |s| && 0 <= j < |w| && f(s[k]) !in pw ==> s[k].timestamp <= w[j].timestamp
  {
    ProjectSubMultiset(w, s, f, pw, ps);
    forall i | 0 <= i < |w|
      ensures f(w[i]) in pw
    {
      assert pw[i] == f(w[i]);
    }
  }

  /** `get_percent_data_from_db`: CPU, battery and RAM percentages of the 50
      newest rows, oldest first. */
  function PercentData(s: seq<Row>): (r: seq<PercentPoint>)
    ensures |r| == if WindowSize < |s| then WindowSize else |s|
    ensures forall i, j :: 0 <= i < j < |r| ==> r[i].timestamp <= r[j].timestamp
    ensures forall i :: 0 <= i < |r| ==> exists k :: 0 <= k < |s| && PercentOf(s[k]) == r[i]
    ensures multiset(r) <= multiset(PercentOfs(s))
    ensures forall k, j :: 0 <= k < |s| && 0 <= j < |r| && PercentOf(s[k]) !in r ==> s[k].timestamp <= r[j].timestamp
    ensures exists w :: IsWindow(s, w, WindowSize) && r == PercentOfs(w)
  {
    var w := RecentRows(s, WindowSize);
    var r := PercentOfs(w);
    assert IsWindow(s, w, WindowSize);
    forall i | 0 <= i < |r|
      ensures exists k :: 0 <= k < |s| && PercentOf(s[k]) == r[i]
    {
      WindowRowsStored(s, w, i);
    }
    WindowProjection(s, w, PercentOf, r, PercentOfs(s));
    r
  }

  /** `get_ram_data_from_db`: total, used and available memory of the 50 newest
      rows, oldest first. */
  function RamData(s: seq<Row>): (r: seq<RamPoint>)
    ensures |r| == if WindowSize < |s| then WindowSize else |s|
    ensures forall i, j :: 0 <= i < j < |r| ==> r[i].timestamp <= r[j].timestamp
    ensures forall i :: 0 <= i < |r| ==> exists k :: 0 <= k < |s| && RamOf(s[k]) == r[i]
    ensures multiset(r) <= multiset(RamOfs(s))
    ensures forall k, j :: 0 <= k < |s| && 0 <= j < |r| && RamOf(s[k]) !in r ==> s[k].timestamp <= r[j].timestamp
    ensures exists w :: IsWindow(s, w, WindowSize) && r == RamOfs(w)
  {
    var w := RecentRows(s, WindowSize);
    var r := RamOfs(w);
    assert IsWindow(s, w, WindowSize);
    forall i | 0 <= i < |r|
      ensures exists k :: 0 <= k < |s| && RamOf(s[k]) == r[i]
    {
      WindowRowsStored(s, w, i);
    }
    WindowProjection(s, w, RamOf, r, RamOfs(s));
    r
  }

  /** `get_cpu_time_trend`: the CPU time breakdown of every row, oldest first. */
  function CpuTimeTrend(s: seq<Row>): (r: seq<CpuTimePoint>)
    ensures |r| == |s|
    ensures forall i, j :: 0 <= i < j < |r| ==> r[i].timestamp <= r[j].timestamp
    ensures multiset(r) == multiset(CpuTimesOf(s))
  {
    var w := SortByTime(s);
    CpuTimesOfPermutation(s, w, CpuTimesOf(w));
    ProjectSubMultiset(w, s, CpuTimeOf, CpuTimesOf(w), CpuTimesOf(s));
    ProjectSubMultiset(s, w, CpuTimeOf, CpuTimesOf(s), CpuTimesOf(w));
    CpuTimesOf(w)
  }

  /** The CPU-time point of each row, in the same order. */
  function CpuTimesOf(w: seq<Row>): (r: seq<CpuTimePoint>)
    ensures |r| == |w| && forall i :: 0 <= i < |w| ==> r[i] == CpuTimeOf(w[i])
  {
    seq(|w|, i requires 0 <= i < |w| => CpuTimeOf(w[i]))
  }

  /** The CPU-time points of a sorted permutation of the table are as many as
      its rows and ascending. */
  lemma CpuTimesOfPermutation(s: seq<Row>, w: seq<Row>, r: seq<CpuTimePoint>)
    requires multiset(w) == multiset(s) && Ascending(w)
    requires |r| == |w| && forall i :: 0 <= i < |w| ==> r[i] == CpuTimeOf(w[i])
    ensures |r| == |s|
    ensures forall i, j :: 0 <= i < j < |r| ==> r[i].timestamp <= r[j].timestamp
  {
    assert |w| == |multiset(w)| == |multiset(s)| == |s|;
    forall i, j | 0 <= i < j < |r|
      ensures r[i].timestamp <= r[j].timestamp
    {
      assert r[i].timestamp == w[i].timestamp && r[j].timestamp == w[j].timestamp;
    }
  }

  /** The dictionary keys of `get_cpu_time_distribution`, in insertion order. */
  const SystemModeKey: string := "System Mode(Kernel & Drivers)"
  const UserModeKey: string := "User Mode"
  const IdleModeKey: string := "Idle Mode"

  /** `get_cpu_time_distribution`: system, user and idle time of the newest row
      under their keys, or zero for each key when the table is empty. */
  function CpuTimeDistribution(s: seq<Row>): (r: seq<(string, real)>)
    ensures |r| == 3 && r[0].0 == SystemModeKey && r[1].0 == UserModeKey && r[2].0 == IdleModeKey
    ensures |s| == 0 ==> r[0].1 == 0.0 && r[1].1 == 0.0 && r[2].1 == 0.0
    ensures |s| > 0 ==> exists k :: (IsNewest(s, k)
      && r[0].1 == s[k].cpuTimesSystem && r[1].1 == s[k].cpuTimesUser && r[2].1 == s[k].cpuTimesIdle)
  {
    match Latest(s)
    case None => [(SystemModeKey, 0.0), (UserModeKey, 0.0), (IdleModeKey, 0.0)]
    case Some(x) =>
      assert IsNewest(s, LatestIndex(s));
      [(SystemModeKey, x.cpuTimesSystem), (UserModeKey, x.cpuTimesUser), (IdleModeKey, x.cpuTimesIdle)]
  }
}

=== FILE: text.dfy ===
/** Joining strings with a separator, as Python's `str.join` does, and splitting
    a `", "`-separated list back into its items. */
module Text {

  /** The separator both the alert subject and the `To` header use. */
  const ListSeparator: string := ", "

  /** `sep.join(parts)`: the parts in order, with `sep` between neighbours. */
  function Join(parts: seq<string>, sep: string): string
  {
    if |parts| == 0 then ""
    else if |parts| == 1 then parts[0]
    else parts[0] + sep + Join(parts[1..], sep)
  }

  /** True when `s` holds no comma, so it can be an item of a `", "`-separated list. */
  predicate NoComma(s: string)
  {
    forall i :: 0 <= i < |s| ==> s[i] != ','
  }

  /** Splits `s` at every occurrence of `", "`; an empty string is one empty item. */
  function SplitList(s: string): (r: seq<string>)
    ensures |r| >= 1
    decreases |s|
  {
    if |s| < 2 then [s]
    else if s[0] == ',' && s[1] == ' ' then [""] + SplitList(s[2..])
    else
      var rest := SplitList(s[1..]);
      [[s[0]] + rest[0]] + rest[1..]
  }

  /** An item without a comma is split off the front of a list intact. */
  lemma {:induction false} SplitItem(x: string, y: string)
    requires NoComma(x)
    ensures SplitList(x + ListSeparator + y) == [x] + SplitList(y)
    decreases |x|
  {
    var s := x + ListSeparator + y;
    if |x| == 0 {
      assert s == ", " + y;
      assert s[2..] == y;
    } else {
      assert s[0] == x[0];
      assert s[1..] == x[1..] + ListSeparator + y;
      SplitItem(x[1..], y);
      assert [x[0]] + x[1..] == x;
    }
  }

  /** A string without a comma is a list of one item. */
  lemma {:induction false} SplitSingle(x: string)
    requires NoComma(x)
    ensures SplitList(x) == [x]
    decreases |x|
  {
    if |x| >= 2 {
      assert x[0] != ',';
      SplitSingle(x[1..]);
      assert [x[0]] + x[1..] == x;
    }
  }

  /** Joining comma-free items with `", "` and splitting the result gives the items back. */
  lemma {:induction false} SplitJoin(parts: seq<string>)
    requires |parts| > 0
    requires forall i :: 0 <= i < |parts| ==> NoComma(parts[i])
    ensures SplitList(Join(parts, ListSeparator)) == parts
    decreases |parts|
  {
    if |parts| == 1 {
      SplitSingle(parts[0]);
    } else {
      SplitItem(parts[0], Join(parts[1..], ListSeparator));
      SplitJoin(parts[1..]);
      assert [parts[0]] + parts[1..] == parts;
    }
  }
}

=== FILE: wrappers.dfy ===
/** Optional values and results with an error, as the rest of the model uses them. */
module Wrappers {

  /** A value that may be missing, such as the row a query over an empty table returns. */
  datatype Option<+T> = None | Some(value: T)

  /** The outcome of an operation that either succeeds with a value or raises an error. */
  datatype Result<+T, +E> = Ok(value: T) | Err(error: E)
}
